=== FILE: README.md ===
# progresstest — the progress formatter and message list

`progresstest` is a small Deno tool that writes synthetic progress lines to
standard error, so that terminal UIs and log viewers have a controllable
source of progress-like text. This project models its pure core in Dafny:

- `formatProgress(i, count)`: `i` in decimal, left-padded with `'0'` to the
  number of digits of `count` (JavaScript `padStart`: pad, never truncate),
  then `/`, then `count` in decimal.
- The list of messages the main loop writes: for steps `1..count`,
  `"Progress... " + formatProgress(step, count)` followed by `"\r"` when
  `inplace` is set and `"\n"` otherwise.

Three modules:

- `Decimal` (`decimal.dfy`): `toString(10)` of an integer up to
  2^53 (`NatToString`), reading digits back (`StringToNat`), and an arithmetic
  digit count (`NumDigits`) that the rendering is checked against.
- `Pad` (`pad.dfy`): `padStart` with a one-character fill.
- `Progress` (`progress.dfy`): the counter, the message of one step, the
  message list (as a recursive function and as the loop `Emit`), and
  parsers (`ParseProgress`, `ParseMessage`) that read a counter or a
  message back. Each parser is the exact inverse of its renderer.

The inputs `count` and `inplace` are taken as already parsed; `count` is a
`nat`, and the model is faithful to the JavaScript number arithmetic for
counts up to 2^53 (see "Left out"). The output stream becomes a `seq<string>` of messages.

## Model

| member | source | states |
|---|---|---|
| Decimal.NatToString | progresstest.ts:45-46 | the decimal of `n` is a non-empty digit string with no leading zero (unless `n` is 0), exactly `NumDigits(n)` characters long |
| Decimal.NumDigitsBounds | progresstest.ts:45 | the width taken from `count` is the `d` with `10^(d-1) <= count < 10^d` |
| Decimal.NumDigitsMonotone | progresstest.ts:45-46 | a smaller step never has more digits than the count |
| Decimal.NatToStringRoundTrip | progresstest.ts:46 | reading the decimal of `n` back gives `n` |
| Decimal.StringToNatRoundTrip | progresstest.ts:46 | every canonical digit string is the decimal of the number it denotes, so rendering is a bijection onto canonical strings |
| Decimal.LeadingZerosValue | progresstest.ts:46 | prepending zeros to a digit string keeps it a digit string and keeps its value |
| Pad.PadStart | progresstest.ts:46 | `padStart`: the result is as long as `s` or `width`, whichever is larger, ends with `s`, is fill before that, and is `s` itself when `s` is already wide enough (no truncation) |
| Pad.ZeroPadValue | progresstest.ts:46 | zero padding keeps a digit string a digit string with the same value |
| Pad.DigitsArePadded | progresstest.ts:46 | conversely, every non-empty digit string is the zero padding of its own value's decimal to its own length |
| Progress.Width | progresstest.ts:45 | the width `count.toString(10).length` equals the digit count of `count` |
| Progress.PaddedIndex | progresstest.ts:46 | the padded index is a digit string that reads back as `i`, is `max(digits(i), digits(count))` long, and is the plain decimal of `i` when that is already wide enough |
| Progress.PaddedIndexWidth | progresstest.ts:45-46 | for `i <= count` the padded index is exactly as wide as the decimal of `count` |
| Progress.FormatProgress | progresstest.ts:44-47 | the counter has a `/` right after the padded index, followed by exactly `digits(count)` more characters |
| Progress.FormatProgressParts | progresstest.ts:46 | the text before the slash is the padded index, and the text after it is the plain decimal of `count` with no padding |
| Progress.FormatProgressSlash | progresstest.ts:46 | the counter contains exactly one `/`, right after the padded index, and every other character is a digit |
| Progress.ProgressRoundTrip | progresstest.ts:44-47 | splitting at the slash gives back `(i, count)` exactly when the text is `formatProgress(i, count)`; the reader checks only digits and widths, not the renderer |
| Progress.Message | progresstest.ts:66-68 | a message starts with the label, is one character longer than label and counter together, and ends with `\r` when `inplace`, `\n` otherwise |
| Progress.MessageParts | progresstest.ts:66-68 | between the label and the terminator a message holds exactly `formatProgress(step, count)` |
| Progress.Steps | progresstest.ts:64-68 | after `n` rounds the loop has produced `n` messages, the k-th (from 0) for step `k + 1` |
| Progress.Messages | progresstest.ts:64 | a run yields exactly `count` messages, none when `count` is 0 |
| Progress.Emit | progresstest.ts:64-70 | the loop, with delay and write replaced by appending, produces exactly the message list |
| Progress.MessageFrame | progresstest.ts:66-68 | a message starts with `"Progress... "`, its last character is `\r` when `inplace` and `\n` otherwise, and no other character is `\r` or `\n` |
| Progress.MessageRoundTrip | progresstest.ts:66-68 | a message reads back as step, count and `inplace` exactly when it is the message built from them |
| Progress.MessagesSteps | progresstest.ts:64-66 | the k-th message reports step `k + 1` of `count` with the run's `inplace`, so steps strictly increase from 1 to `count` |
| Progress.MessagesIncreasing | progresstest.ts:64-66 | read back, a later message of a run reports a strictly larger step than an earlier one |
| Progress.MessagesFrame | progresstest.ts:64-68 | every message of a run has the label in front and exactly one terminator, the one `inplace` selects, at the end |
| Progress.MessagesEqualLength | progresstest.ts:45-68 | all messages of a run have the same length, 12 + 2·digits(count) + 2 |

## Left out

- Argument parsing (`parseArgs`, progresstest.ts:15-42): it wraps the `std/flags` library, which is not part of this model, and `Number(...)` brings in floating point and NaN. `count` and `inplace` are parameters instead; `interval` has no effect on the messages.
- Non-integer, negative or NaN counts: floating-point behaviour of `Number`, `toString` and `<`; the model takes `count` as a `nat`.
- Decimal.NatToString: renders every `nat` as its exact digits, which matches JavaScript only for counts up to 2^53. From 10^21 on `toString(10)` switches to exponential form: `--count=1e21` renders as `1e+21`, so the width is 5 and the first message is `Progress... 00001/1e+21`. Above 2^53 a number prints as the shortest digits that round-trip: 2^60 prints as `1152921504606847000`, not `1152921504606846976`.
- Progress.Messages: promises exactly `count` messages. The program keeps that promise only for counts up to 2^53. Above that, `i++` at progresstest.ts:64 stops at 2^53, because 2^53 + 1 rounds back to 2^53. The loop then never ends and repeats step 2^53 forever.
- Progress.MessagesIncreasing: holds of the program only for counts up to 2^53, for the same reason.
- The help branch (progresstest.ts:51-62): console output and `Deno.exit(1)`.
- `delay(interval)` and the async scheduling (progresstest.ts:65): timing.
- `TextEncoder`, `writeAll` and `Deno.stderr` (progresstest.ts:13, 63, 69): byte encoding and stream I/O; the output is modelled as the sequence of message strings.
- A multi-line banner: progresstest.ts has no banner and no multiline option, so there is nothing to model.
- Pad.PadStart: only a one-character fill string is modelled, the only form the tool uses; JavaScript's handling of longer or empty fill strings is not.

=== FILE: decimal.dfy ===
/** Decimal rendering of natural numbers, as `Number.prototype.toString(10)`
    produces it for an integer up to 2^53, and reading such text
    back. Above 2^53 a JavaScript number prints rounded digits, and from
    10^21 on it prints in exponential form; neither is modelled here. */
module Decimal {

  predicate IsDigit(c: char) {
    '0' <= c <= '9'
  }

  predicate IsDigits(s: string) {
    forall k :: 0 <= k < |s| ==> IsDigit(s[k])
  }

  /** The text `toString(10)` yields: at least one digit, and no leading
      zero unless the number itself is zero. */
  predicate IsCanonical(s: string) {
    IsDigits(s) && |s| >= 1 && (s[0] == '0' ==> |s| == 1)
  }

  function DigitChar(d: nat): (c: char)
    requires d < 10
    ensures IsDigit(c)
  {
    ('0' as int + d) as char
  }

  function DigitValue(c: char): (d: nat)
    requires IsDigit(c)
    ensures d < 10
  {
    c as int - '0' as int
  }

  lemma DigitCharValue(d: nat)
    requires d < 10
    ensures DigitValue(DigitChar(d)) == d
  {
  }

  lemma DigitValueChar(c: char)
    requires IsDigit(c)
    ensures DigitChar(DigitValue(c)) == c
  {
  }

  function Pow10(e: nat): (p: nat)
    ensures p >= 1
  {
    if e == 0 then 1 else 10 * Pow10(e - 1)
  }

  /** Number of decimal digits of `n`, counted arithmetically and
      independently of any rendering. Zero has one digit. */
  function NumDigits(n: nat): (d: nat)
    ensures d >= 1
  {
    if n < 10 then 1 else 1 + NumDigits(n / 10)
  }

  /** `NumDigits(n)` is the unique `d` with `10^(d-1) <= n < 10^d`
      (for `n >= 1`; zero falls below the lower bound). */
  lemma {:induction false} NumDigitsBounds(n: nat)
    ensures n < Pow10(NumDigits(n))
    ensures n >= 1 ==> Pow10(NumDigits(n) - 1) <= n
  {
    if n >= 10 {
      NumDigitsBounds(n / 10);
    }
  }

  /** More value never means fewer digits. */
  lemma {:induction false} NumDigitsMonotone(a: nat, b: nat)
    requires a <= b
    ensures NumDigits(a) <= NumDigits(b)
  {
    if a >= 10 {
      NumDigitsMonotone(a / 10, b / 10);
    }
  }

  /** The decimal rendering of `n`: canonical digits, exactly
      `NumDigits(n)` of them. */
  function NatToString(n: nat): (s: string)
    ensures IsCanonical(s)
    ensures |s| == NumDigits(n)
    ensures n >= 1 ==> s[0] != '0'
  {
    if n < 10 then [DigitChar(n)] else NatToString(n / 10) + [DigitChar(n % 10)]
  }

  /** Reads a digit string back as a number; leading zeros are allowed,
      as they are when a zero-padded counter is read. */
  function StringToNat(s: string): (n: nat)
    requires IsDigits(s)
    ensures n < Pow10(|s|)
  {
    if |s| == 0 then 0
    else 10 * StringToNat(s[..|s| - 1]) + DigitValue(s[|s| - 1])
  }

  /** Reading back what was rendered gives the number again. */
  lemma {:induction false} NatToStringRoundTrip(n: nat)
    ensures StringToNat(NatToString(n)) == n
  {
    var s := NatToString(n);
    if n < 10 {
      DigitCharValue(n);
    } else {
      var p := NatToString(n / 10);
      assert s[..|s| - 1] == p;
      NatToStringRoundTrip(n / 10);
      DigitCharValue(n % 10);
    }
  }

  lemma {:induction false} LeadingDigitBound(s: string)
    requires IsDigits(s) && |s| >= 1
    ensures StringToNat(s) >= DigitValue(s[0])
  {
    if |s| > 1 {
      var p := s[..|s| - 1];
      assert p[0] == s[0];
      LeadingDigitBound(p);
    }
  }

  /** Every canonical digit string is the rendering of the number it
      denotes: rendering is onto the canonical strings. */
  lemma {:induction false} StringToNatRoundTrip(s: string)
    requires IsCanonical(s)
    ensures NatToString(StringToNat(s)) == s
  {
    if |s| == 1 {
      DigitValueChar(s[0]);
      assert StringToNat(s) == DigitValue(s[0]);
    } else {
      var p := s[..|s| - 1];
      var d := DigitValue(s[|s| - 1]);
      assert p[0] == s[0];
      StringToNatRoundTrip(p);
      LeadingDigitBound(p);
      var v := StringToNat(p);
      assert v >= 1;
      assert StringToNat(s) == 10 * v + d;
      assert (10 * v + d) / 10 == v;
      assert (10 * v + d) % 10 == d;
      DigitValueChar(s[|s| - 1]);
      assert s == p + [s[|s| - 1]];
    }
  }

  /** `k` copies of `c`. */
  function Repeat(c: char, k: nat): (r: string)
    ensures |r| == k
    ensures forall j :: 0 <= j < k ==> r[j] == c
  {
    seq(k, _ => c)
  }

  lemma {:induction false} ZerosValue(k: nat)
    ensures IsDigits(Repeat('0', k))
    ensures StringToNat(Repeat('0', k)) == 0
  {
    if k > 0 {
      assert Repeat('0', k)[..k - 1] == Repeat('0', k - 1);
      ZerosValue(k - 1);
    }
  }

  /** Prepending zeros does not change the value read back. */
  lemma {:induction false} LeadingZerosValue(k: nat, s: string)
    requires IsDigits(s)
    ensures IsDigits(Repeat('0', k) + s)
    ensures StringToNat(Repeat('0', k) + s) == StringToNat(s)
  {
    var z := Repeat('0', k);
    if |s| == 0 {
      assert z + s == z;
      ZerosValue(k);
    } else {
      var p := s[..|s| - 1];
      assert (z + s)[..|z + s| - 1] == z + p;
      LeadingZerosValue(k, p);
    }
  }
}

=== FILE: pad.dfy ===
/** `String.prototype.padStart` with a one-character fill string, the only
    form the progress formatter uses. */
module Pad {
  import opened Decimal

  /** Pads `s` on the left with `fill` up to `width` characters. A string
      already at least `width` long comes back unchanged: padding never
      truncates. */
  function PadStart(s: string, width: nat, fill: char): (r: string)
    ensures |r| == if |s| >= width then |s| else width
    ensures r[|r| - |s|..] == s
    ensures forall k :: 0 <= k < |r| - |s| ==> r[k] == fill
    ensures |s| >= width ==> r == s
  {
    if |s| >= width then s else Repeat(fill, width - |s|) + s
  }

  /** Zero-padding a digit string keeps it a digit string and keeps the
      number it denotes. */
  lemma ZeroPadValue(s: string, width: nat)
    requires IsDigits(s)
    ensures IsDigits(PadStart(s, width, '0'))
    ensures StringToNat(PadStart(s, width, '0')) == StringToNat(s)
  {
    if |s| < width {
      LeadingZerosValue(width - |s|, s);
    }
  }

  /** Dropping one leading zero keeps the value. */
  lemma LeadingZeroStep(s: string)
    requires IsDigits(s) && |s| >= 2 && s[0] == '0'
    ensures IsDigits(s[1..]) && StringToNat(s[1..]) == StringToNat(s)
  {
    assert s == Repeat('0', 1) + s[1..];
    LeadingZerosValue(1, s[1..]);
  }

  /** Padding to one more character puts one more zero in front. */
  lemma PadOneMore(n: string, t: string)
    requires |n| <= |t| && t == PadStart(n, |t|, '0')
    ensures ['0'] + t == PadStart(n, |t| + 1, '0')
  {
    assert Repeat('0', |t| + 1 - |n|) == ['0'] + Repeat('0', |t| - |n|);
  }

  /** Every non-empty digit string is the zero-padding of the decimal of
      its own value to its own length: the value has at most that many
      digits, and what precedes them is zeros. */
  lemma {:induction false} DigitsArePadded(s: string)
    requires IsDigits(s) && |s| >= 1
    ensures NumDigits(StringToNat(s)) <= |s|
    ensures s == PadStart(NatToString(StringToNat(s)), |s|, '0')
  {
    if s[0] != '0' || |s| == 1 {
      CanonicalIsPadded(s);
    } else {
      LeadingZeroStep(s);
      DigitsArePadded(s[1..]);
      ZeroLedPadded(s, NatToString(StringToNat(s)));
    }
  }

  /** A string that is a zero in front of `n` padded to one less than its
      length is `n` padded to its full length. */
  lemma ZeroLedPadded(s: string, n: string)
    requires |s| >= 2 && s[0] == '0'
    requires |n| <= |s| - 1 && s[1..] == PadStart(n, |s| - 1, '0')
    ensures s == PadStart(n, |s|, '0')
  {
    PadOneMore(n, s[1..]);
    assert s == ['0'] + s[1..];
  }

  /** A canonical digit string is its own value's decimal, so padding
      that decimal to the string's length adds nothing. */
  lemma CanonicalIsPadded(s: string)
    requires IsCanonical(s)
    ensures NumDigits(StringToNat(s)) == |s|
    ensures s == PadStart(NatToString(StringToNat(s)), |s|, '0')
  {
    StringToNatRoundTrip(s);
  }
}

=== FILE: progress.dfy ===
/** The progress counter `formatProgress` renders and the list of messages
    the main loop writes, one per step, with the waiting and the stream
    writing taken away. */
module Progress {
  import opened Decimal
  import opened Pad

  datatype Option<T> = None | Some(value: T)

  /** What one progress message carries. */
  datatype Step = Step(index: nat, count: nat, inplace: bool)

  /** The text every progress message starts with. */
  const Label: string := "Progress... "

  /** Terminator of a message: a carriage return rewrites the same
      terminal line, a line feed starts a new one. */
  function Terminator(inplace: bool): string {
    if inplace then "\r" else "\n"
  }

  /** The width of the counter: the number of digits of `count`. */
  function Width(count: nat): (w: nat)
    ensures w == NumDigits(count)
  {
    |NatToString(count)|
  }

  /** The index part of `formatProgress`: `i` in decimal, left-padded
      with zeros to the width of `count`. */
  function PaddedIndex(i: nat, count: nat): (r: string)
    ensures IsDigits(r) && |r| >= 1
    ensures StringToNat(r) == i
    ensures |r| == if NumDigits(i) >= NumDigits(count) then NumDigits(i) else NumDigits(count)
    ensures NumDigits(i) >= NumDigits(count) ==> r == NatToString(i)
  {
    ZeroPadValue(NatToString(i), Width(count));
    NatToStringRoundTrip(i);
    PadStart(NatToString(i), Width(count), '0')
  }

  /** `formatProgress(i, count)`: the padded index, a slash, and the
      unpadded decimal of `count`. */
  function FormatProgress(i: nat, count: nat): (r: string)
    ensures |r| == |PaddedIndex(i, count)| + 1 + NumDigits(count)
    ensures r[|PaddedIndex(i, count)|] == '/'
  {
    PaddedIndex(i, count) + "/" + NatToString(count)
  }

  /** One progress message as the main loop builds it: the label, the
      counter, and the terminator `inplace` selects as last character. */
  function Message(step: nat, count: nat, inplace: bool): (m: string)
    ensures |m| == |Label| + |FormatProgress(step, count)| + 1
    ensures m[..|Label|] == Label
    ensures m[|m| - 1] == (if inplace then '\r' else '\n')
  {
    var m := Label + FormatProgress(step, count) + Terminator(inplace);
    assert m[..|Label|] == Label;
    m
  }

  /** `f(1), ..., f(n)`, appended one at a time in increasing order, the
      way a counting loop produces them. */
  function Accumulate<T>(n: nat, f: nat -> T): (xs: seq<T>)
    ensures |xs| == n
    ensures forall k :: 0 <= k < n ==> xs[k] == f(k + 1)
  {
    if n == 0 then [] else Accumulate(n - 1, f) + [f(n)]
  }

  /** The first `n` messages of a run over `count` steps: step `n` comes
      after steps `1..n-1`. */
  function Steps(n: nat, count: nat, inplace: bool): (ms: seq<string>)
    ensures |ms| == n
    ensures forall k :: 0 <= k < n ==> ms[k] == Message(k + 1, count, inplace)
  {
    Accumulate(n, step => Message(step, count, inplace))
  }

  /** Everything one run writes to the error stream. */
  function Messages(count: nat, inplace: bool): (ms: seq<string>)
    ensures |ms| == count
    ensures count == 0 ==> ms == []
  {
    Steps(count, count, inplace)
  }

  /** The main loop, with the delay and the stream write replaced by
      appending to the output. */
  method Emit(count: nat, inplace: bool) returns (out: seq<string>)
    ensures out == Messages(count, inplace)
  {
    out := [];
    var i := 0;
    while i < count
      invariant 0 <= i <= count
      invariant out == Steps(i, count, inplace)
    {
      var m := Message(i + 1, count, inplace);
      out := out + [m];
      i := i + 1;
    }
  }

  // ---------------------------------------------------------------------
  // Reading messages back

  /** Position of the first `c` in `s`. */
  function IndexOf(s: string, c: char): (r: Option<nat>)
    ensures r.Some? ==> r.value < |s| && s[r.value] == c && c !in s[..r.value]
    ensures r.None? ==> c !in s
  {
    if |s| == 0 then None
    else if s[0] == c then Some(0)
    else match IndexOf(s[1..], c)
      case None => None
      case Some(k) =>
        assert s[..k + 1] == [s[0]] + s[1..][..k];
        Some(k + 1)
  }

  /** The text before and after the first slash, if there is one. */
  function SplitAtSlash(s: string): Option<(string, string)> {
    match IndexOf(s, '/')
    case None => None
    case Some(p) => Some((s[..p], s[p + 1..]))
  }

  /** Reads a counter back. The index side must be digits, as wide as the
      count side or as its own value's digit count, whichever is larger;
      the count side must be canonical decimal. */
  function ParseProgress(s: string): Option<(nat, nat)> {
    match SplitAtSlash(s)
    case None => None
    case Some(lr) =>
      var (left, right) := lr;
      if IsDigits(left) && |left| >= 1 && IsCanonical(right)
         && |left| == (if |right| >= NumDigits(StringToNat(left)) then |right|
                       else NumDigits(StringToNat(left)))
      then Some((StringToNat(left), StringToNat(right)))
      else None
  }

  /** Takes a message apart into the text between the label and the
      terminator, and the terminator character. */
  function Unframe(m: string): Option<(string, char)> {
    if |m| < |Label| + 1 || m[..|Label|] != Label then None
    else if m[|m| - 1] != '\r' && m[|m| - 1] != '\n' then None
    else Some((m[|Label|..|m| - 1], m[|m| - 1]))
  }

  /** Reads a whole message back into the step it reports. */
  function ParseMessage(m: string): Option<Step> {
    match Unframe(m)
    case None => None
    case Some(ft) =>
      match ParseProgress(ft.0)
      case None => None
      case Some(v) => Some(Step(v.0, v.1, ft.1 == '\r'))
  }

  // ---------------------------------------------------------------------
  // Properties of the counter

  /** For a step no larger than the count, the padded index is exactly as
      wide as the count. */
  lemma PaddedIndexWidth(i: nat, count: nat)
    requires i <= count
    ensures |PaddedIndex(i, count)| == NumDigits(count)
    ensures |PaddedIndex(i, count)| == |NatToString(count)|
  {
    NumDigitsMonotone(i, count);
  }

  lemma DigitsAroundSlash(l: string, c: string)
    requires IsDigits(l) && IsDigits(c)
    ensures var r := l + "/" + c;
      (forall k :: 0 <= k < |r| ==> (r[k] == '/' <==> k == |l|)) &&
      (forall k :: 0 <= k < |r| ==> IsDigit(r[k]) || r[k] == '/')
  {
    var r := l + "/" + c;
    forall k | 0 <= k < |r|
      ensures (r[k] == '/' <==> k == |l|) && (IsDigit(r[k]) || r[k] == '/')
    {
      if k < |l| {
        assert r[k] == l[k];
      } else if k > |l| {
        assert r[k] == c[k - |l| - 1];
      }
    }
  }

  /** The counter has exactly one slash, right after the padded index,
      and every other character is a digit. */
  lemma FormatProgressSlash(i: nat, count: nat)
    ensures var r := FormatProgress(i, count);
      (forall k :: 0 <= k < |r| ==> (r[k] == '/' <==> k == |PaddedIndex(i, count)|)) &&
      (forall k :: 0 <= k < |r| ==> IsDigit(r[k]) || r[k] == '/')
  {
    DigitsAroundSlash(PaddedIndex(i, count), NatToString(count));
  }

  lemma SlashParts(a: string, b: string)
    ensures (a + "/" + b)[..|a|] == a && (a + "/" + b)[|a| + 1..] == b
  {
    var r := a + "/" + b;
    assert r[..|a|] == a;
    assert r[|a| + 1..] == b;
  }

  /** The counter is the padded index, the slash, and the plain decimal
      of `count` with no padding. */
  lemma FormatProgressParts(i: nat, count: nat)
    ensures var r := FormatProgress(i, count);
      r[..|PaddedIndex(i, count)|] == PaddedIndex(i, count) &&
      r[|PaddedIndex(i, count)| + 1..] == NatToString(count)
  {
    SlashParts(PaddedIndex(i, count), NatToString(count));
  }

  /** Between the label and the terminator, a message holds exactly the
      counter. */
  lemma MessageParts(step: nat, count: nat, inplace: bool)
    ensures var m := Message(step, count, inplace);
      m[|Label|..|m| - 1] == FormatProgress(step, count)
  {
  }

  lemma SplitAtFirst(a: string, c: char, b: string)
    requires c !in a
    ensures IndexOf(a + [c] + b, c) == Some(|a|)
  {
    assert (a + [c] + b)[|a|] == c;
  }

  lemma SplitAtSlashJoin(a: string, b: string)
    requires '/' !in a
    ensures SplitAtSlash(a + "/" + b) == Some((a, b))
  {
    var s := a + "/" + b;
    SplitAtFirst(a, '/', b);
    assert s[..|a|] == a;
    assert s[|a| + 1..] == b;
  }

  lemma SplitAtSlashParts(s: string)
    requires SplitAtSlash(s).Some?
    ensures var (a, b) := SplitAtSlash(s).value;
      s == a + "/" + b
  {
    var p := IndexOf(s, '/').value;
    assert s == s[..p] + [s[p]] + s[p + 1..];
  }

  lemma FormatThenParse(i: nat, count: nat)
    ensures ParseProgress(FormatProgress(i, count)) == Some((i, count))
  {
    var l := PaddedIndex(i, count);
    var c := NatToString(count);
    assert '/' !in l by {
      forall k | 0 <= k < |l| ensures l[k] != '/' { assert IsDigit(l[k]); }
    }
    SplitAtSlashJoin(l, c);
    NatToStringRoundTrip(count);
  }

  lemma ParseThenFormat(s: string, i: nat, count: nat)
    requires ParseProgress(s) == Some((i, count))
    ensures s == FormatProgress(i, count)
  {
    SplitAtSlashParts(s);
    var (left, right) := SplitAtSlash(s).value;
    StringToNatRoundTrip(right);
    DigitsArePadded(left);
    assert left == PadStart(NatToString(i), |left|, '0');
    assert left == PaddedIndex(i, count);
  }

  /** Splitting a rendered counter at its slash recovers the step and the
      count; and only rendered counters are read back successfully. */
  lemma ProgressRoundTrip(s: string, i: nat, count: nat)
    ensures ParseProgress(s) == Some((i, count)) <==> s == FormatProgress(i, count)
  {
    if s == FormatProgress(i, count) {
      FormatThenParse(i, count);
    }
    if ParseProgress(s) == Some((i, count)) {
      ParseThenFormat(s, i, count);
    }
  }

  // ---------------------------------------------------------------------
  // Properties of the messages

  lemma FramedNoBreak(f: string, t: char)
    requires forall k :: 0 <= k < |f| ==> IsDigit(f[k]) || f[k] == '/'
    ensures var m := Label + f + [t];
      forall k :: 0 <= k < |m| - 1 ==> m[k] != '\r' && m[k] != '\n'
  {
    var m := Label + f + [t];
    forall k | 0 <= k < |m| - 1
      ensures m[k] != '\r' && m[k] != '\n'
    {
      if k >= |Label| {
        assert m[k] == f[k - |Label|];
      }
    }
  }

  /** Every message is the label, a counter of digits and one slash, and
      exactly one terminator, which is its last character. */
  lemma MessageFrame(step: nat, count: nat, inplace: bool)
    ensures var m := Message(step, count, inplace);
      |m| > |Label| &&
      m[..|Label|] == Label &&
      m[|m| - 1] == (if inplace then '\r' else '\n') &&
      forall k :: 0 <= k < |m| - 1 ==> m[k] != '\r' && m[k] != '\n'
  {
    var f := FormatProgress(step, count);
    var t := if inplace then '\r' else '\n';
    assert Message(step, count, inplace) == Label + f + [t];
    FormatProgressSlash(step, count);
    FramedNoBreak(f, t);
  }

  lemma UnframeFramed(f: string, t: char)
    requires t == '\r' || t == '\n'
    ensures Unframe(Label + f + [t]) == Some((f, t))
  {
    var m := Label + f + [t];
    assert m[..|Label|] == Label;
    assert m[|Label|..|m| - 1] == f;
  }

  lemma UnframeParts(m: string)
    requires Unframe(m).Some?
    ensures var (f, t) := Unframe(m).value;
      m == Label + f + [t] && (t == '\r' || t == '\n')
  {
    assert m == m[..|Label|] + m[|Label|..|m| - 1] + [m[|m| - 1]];
  }

  lemma MessageThenParse(st: Step)
    ensures ParseMessage(Message(st.index, st.count, st.inplace)) == Some(st)
  {
    var f := FormatProgress(st.index, st.count);
    var t := if st.inplace then '\r' else '\n';
    assert Message(st.index, st.count, st.inplace) == Label + f + [t];
    UnframeFramed(f, t);
    FormatThenParse(st.index, st.count);
  }

  lemma ParseThenMessage(m: string, st: Step)
    requires ParseMessage(m) == Some(st)
    ensures m == Message(st.index, st.count, st.inplace)
  {
    UnframeParts(m);
    var (f, t) := Unframe(m).value;
    ParseThenFormat(f, st.index, st.count);
    assert Terminator(st.inplace) == [t];
  }

  /** A message is read back into the step it was built from, and only
      messages built that way are read back. */
  lemma MessageRoundTrip(m: string, st: Step)
    ensures ParseMessage(m) == Some(st) <==> m == Message(st.index, st.count, st.inplace)
  {
    if m == Message(st.index, st.count, st.inplace) {
      MessageThenParse(st);
    }
    if ParseMessage(m) == Some(st) {
      ParseThenMessage(m, st);
    }
  }

  /** The k-th message (from zero) reports step `k + 1` of `count`, so the
      steps run from 1 up to `count`, strictly increasing. */
  lemma MessageStep(count: nat, inplace: bool, k: nat)
    requires k < count
    ensures ParseMessage(Messages(count, inplace)[k]) == Some(Step(k + 1, count, inplace))
  {
    assert Messages(count, inplace)[k] == Message(k + 1, count, inplace);
    MessageThenParse(Step(k + 1, count, inplace));
  }

  lemma MessagesSteps(count: nat, inplace: bool)
    ensures var ms := Messages(count, inplace);
      forall k :: 0 <= k < |ms| ==> ParseMessage(ms[k]) == Some(Step(k + 1, count, inplace))
  {
    forall k | 0 <= k < count
      ensures ParseMessage(Messages(count, inplace)[k]) == Some(Step(k + 1, count, inplace))
    {
      MessageStep(count, inplace, k);
    }
  }

  /** Read back, the steps of a run strictly increase. */
  lemma MessagesIncreasing(count: nat, inplace: bool, j: nat, k: nat)
    requires j < k < count
    ensures var ms := Messages(count, inplace);
      ParseMessage(ms[j]).Some? && ParseMessage(ms[k]).Some? &&
      ParseMessage(ms[j]).value.index < ParseMessage(ms[k]).value.index
  {
    MessagesSteps(count, inplace);
  }

  lemma MessageFrameAt(count: nat, inplace: bool, k: nat)
    requires k < count
    ensures var m := Messages(count, inplace)[k];
      |m| > |Label| &&
      m[..|Label|] == Label &&
      m[|m| - 1] == (if inplace then '\r' else '\n') &&
      forall j :: 0 <= j < |m| - 1 ==> m[j] != '\r' && m[j] != '\n'
  {
    var m := Messages(count, inplace)[k];
    assert m == Message(k + 1, count, inplace);
    MessageFrame(k + 1, count, inplace);
  }

  /** Every message of a run starts with the label and ends with the one
      terminator `inplace` selects. */
  lemma MessagesFrame(count: nat, inplace: bool)
    ensures var ms := Messages(count, inplace);
      forall k :: 0 <= k < |ms| ==>
        |ms[k]| > |Label| &&
        ms[k][..|Label|] == Label &&
        ms[k][|ms[k]| - 1] == (if inplace then '\r' else '\n') &&
        forall j :: 0 <= j < |ms[k]| - 1 ==> ms[k][j] != '\r' && ms[k][j] != '\n'
  {
    forall k | 0 <= k < count
      ensures var m := Messages(count, inplace)[k];
        |m| > |Label| &&
        m[..|Label|] == Label &&
        m[|m| - 1] == (if inplace then '\r' else '\n') &&
        forall j :: 0 <= j < |m| - 1 ==> m[j] != '\r' && m[j] != '\n'
    {
      MessageFrameAt(count, inplace, k);
    }
  }

  lemma MessageLengthAt(count: nat, inplace: bool, k: nat)
    requires k < count
    ensures |Messages(count, inplace)[k]| == |Label| + 2 * NumDigits(count) + 2
  {
    assert Messages(count, inplace)[k] == Message(k + 1, count, inplace);
    PaddedIndexWidth(k + 1, count);
  }

  /** The width is fixed by `count`, so all messages of one run have the
      same length: the label, two numbers of `count`'s width, the slash
      and the terminator. */
  lemma MessagesEqualLength(count: nat, inplace: bool)
    ensures var ms := Messages(count, inplace);
      forall k :: 0 <= k < |ms| ==> |ms[k]| == |Label| + 2 * NumDigits(count) + 2
  {
    forall k | 0 <= k < count
      ensures |Messages(count, inplace)[k]| == |Label| + 2 * NumDigits(count) + 2
    {
      MessageLengthAt(count, inplace, k);
    }
  }
}
